=== FILE: README.md ===
# Monte Carlo risk simulation — a Dafny model of the engine

The library estimates a project's duration from per-task three-point estimates
(minimum, most likely, maximum). It works in four steps:

1. Read the tasks from delimited text. A header line names the columns `name`,
   `min`, `mode` and `max`; the separator is detected as comma, tab or semicolon.
2. Draw `sample_count` samples per task from the triangular distribution by
   inverse-CDF sampling. Add a "Total" series whose i-th sample is the sum of
   every task's i-th sample. Every series carries its running minimum, maximum
   and sum.
3. Cut each series into equal-width histogram buckets.
4. Compute nearest-rank percentiles, the interquartile range, the median, the
   mean and a dispersion value for one series.

One module per concern:

- `Types`: the task record, `Option`/`Result`, the error record, and
  `ExtReal`, the f64 running minimum/maximum with its ±infinity start values.
- `Text`: Rust's `str::lines`, `str::split(char)` and ASCII `to_lowercase`.
- `TaskCsv`: `parse_tasks_from_csv` with its nested `parse_header_with_separator`.
- `Sampler`: `triangular_distribution_inv_cdf`.
- `MonteCarlo`: `run_monte_carlo` and the `SampledTask` record.
- `Buckets`: `bucket_samples` and the `BucketedSamples` record.
- `Statistics`: `calculate_stats`, the `Stats` record, and the in-place sort of
  the samples.

Loops in the source are methods with loop invariants, each proved against a
specification function. Pure computations are functions with lemmas.

Floating-point numbers are modelled as reals. Two library calls are
parameters: the square root (`sqrt: real -> real`, constrained by `IsSqrt`
where a lemma needs it) and `str::parse::<f64>` (`parse: string -> real`).
The random number generator is replaced by the uniform draws it would yield:
row j of `draws` holds the values taken while sampling task j.

## Behaviour of the code

- The value the code calls `stdev` is the mean of the squared deviations.
  No square root is taken, so it is the population variance.
- No operation reports an error for a degenerate distribution, an empty
  sample count, a zero bucket count or a percentile count of 1:
  - `InvCdf` follows the f64 branch choice when max == min
    (`TakesLowerBranch`), and every probability then yields min.
  - `RunMonteCarlo` accepts `sampleCount == 0`; the series then keep
    +infinity and -infinity as their minimum and maximum.
  - The calls that panic are preconditions in the model: a zero bucket
    count with a non-empty series; an empty series or a percentile count of 1
    in `calculate_stats`; a task line with too few cells.
  - A percentile count of 0 does not panic: it gives no percentiles.

## Model

| member | source | states |
|---|---|---|
| Types.ExtReal.MinWith | src/lib.rs:298 | `f64::min` with a finite sample, as the task and total loops (also line 322) apply it: the result is -infinity exactly when the old value is; from +infinity or a finite value it is finite, at most the sample and at most the old finite value, and is one of the two |
| Types.ExtReal.MaxWith | src/lib.rs:299 | `f64::max` with a finite sample, as the task and total loops (also line 323) apply it: the result is +infinity exactly when the old value is; from -infinity or a finite value it is finite, at least the sample and at least the old finite value, and is one of the two |
| Text.Split | src/lib.rs:66 | `str::split` always yields at least one piece, and no piece contains the separator |
| Text.JoinSplit | src/lib.rs:66 | splitting loses nothing: joining the pieces with the separator gives back the line |
| Text.SplitJoin | src/lib.rs:117 | splitting a join of separator-free cells gives back exactly those cells, so cell positions are well defined |
| Text.Lines | src/lib.rs:95 | `str::lines` yields no line exactly for the empty text, and no line contains a line feed |
| Text.LinesAreSplitPieces | src/lib.rs:95 | the lines are the pieces of a split at line feeds: each piece followed by a line feed loses one trailing carriage return, and the text after the final line feed is a line only when it is not empty |
| Text.LowerChar | src/lib.rs:72 | the lower-cased character is never an ASCII capital; a character that is not an ASCII capital is kept; a capital moves to its lower-case letter |
| Text.ToLower | src/lib.rs:72 | lower-casing keeps the length and lower-cases each character in place (`LowerChar`), so no ASCII capital is left and a text without capitals comes back unchanged |
| Text.ToLowerMatches | src/lib.rs:72-76 | a cell lower-cases to a lower-case column name exactly when it has the name's length and each character is the name's or, for a letter, its capital: the `match` is a case-insensitive comparison |
| TaskCsv.LastMatchIsLast | src/lib.rs:71-79 | a column is found exactly when some cell names it (case-insensitively), and the recorded position is the last such cell, since later matches overwrite earlier ones |
| TaskCsv.HeaderOfSpec | src/lib.rs:80-92 | a header parse succeeds exactly when all four of name/min/mode/max are present, and each position is that column's last occurrence |
| TaskCsv.ParseHeaderWithSeparator | src/lib.rs:65-93 | the scanning loop yields exactly the header interpretation of the split line (`HeaderOf`) |
| TaskCsv.FirstWorking | src/lib.rs:103-109 | the separator chosen is the first of comma, tab, semicolon whose split names all four columns; every earlier one fails |
| TaskCsv.DetectHeader | src/lib.rs:98-112 | no header exactly when none of comma, tab, semicolon gives a split naming all four columns; otherwise the separator is the first that does and the positions are that split's header interpretation (`HeaderOfSpec`, `FirstWorking`) |
| TaskCsv.DetectSeparator | src/lib.rs:103-109 | the separator loop, stopping at the first separator that reads as a header, yields exactly `DetectHeader` of the header line |
| TaskCsv.ParseTasksFromCsv | src/lib.rs:57-128 | empty text gives "no header line found"; a header no separator can read gives "invalid header"; otherwise one task per later line, in order, read from the detected columns with the detected separator |
| Sampler.InvCdf | src/lib.rs:337-345 | the definition: requires 0 <= p <= 1 (the source's `assert!`); lower closed form min + sqrt(p (mode - min)(max - min)) when p <= cdf_at_mode, upper closed form max - sqrt((max - min)(max - mode)(1 - p)) otherwise; its properties are the `InvCdf*` lemma rows below |
| Sampler.InvCdfWithinBounds | src/lib.rs:337-345 | for min <= mode <= max and p in [0,1], the sample lies in [min, max] |
| Sampler.InvCdfEndpoints | src/lib.rs:337-345 | probability 0 gives min and probability 1 gives max |
| Sampler.InvCdfSplitsAtMode | src/lib.rs:339-344 | for min < max, the lower branch is taken exactly when p <= cdf_at_mode; the sample is at most the mode exactly then; and at p = cdf_at_mode the sample is the mode |
| Sampler.InvCdfDegenerate | src/lib.rs:339-344 | with min == max every probability yields min, whichever branch the f64 comparison picks |
| MonteCarlo.MinOfIsMinimum | src/lib.rs:288-298 | the running minimum folded from +infinity stays +infinity exactly for the empty series, and is otherwise a sample no sample is below |
| MonteCarlo.MaxOfIsMaximum | src/lib.rs:289-299 | the running maximum folded from -infinity stays -infinity exactly for the empty series, and is otherwise a sample no sample is above |
| MonteCarlo.SampleTask | src/lib.rs:286-310 | one sample per draw, each the inverse CDF of its draw; the kept min/max/sum are those of the samples, and the task is recorded |
| MonteCarlo.SumColumn | src/lib.rs:318-321 | the inner total loop computes the left-to-right sum of the tasks' i-th samples |
| MonteCarlo.TotalSeries | src/lib.rs:312-333 | the "Total" series has `sample_count` samples, the i-th being the sum of every task's i-th sample, with consistent min/max/sum |
| MonteCarlo.ColumnSumBounds | src/lib.rs:317-321 | a total lies between the sum of the task minimums and the sum of the task maximums when each task sample lies within its bounds |
| MonteCarlo.RunMonteCarlo | src/lib.rs:277-335 | one series per task in order, plus a last "Total" series; every series has `sample_count` samples and consistent min/max/sum; the i-th total is the sum of the tasks' i-th samples (0 with no tasks) and lies between the sums of the task minimums and maximums |
| Buckets.BucketWidth | src/lib.rs:258 | the bucket width is finite exactly for a non-empty series; it is then non-negative, and bucket_count widths span max - min |
| Buckets.BucketIndex | src/lib.rs:261-264 | the clamped bucket index is always a valid bucket, including for the maximum sample, a zero width and the saturating f64-to-usize cast; which bucket is stated by `BucketIndexInterval` |
| Buckets.BucketIndexInterval | src/lib.rs:261-264 | with a positive width, a sample at or above min gets the index k with min + k * width <= sample, and sample < min + (k + 1) * width unless k is the last bucket |
| Buckets.SeriesBucketInterval | src/lib.rs:258-266 | in a series whose samples are not all equal, every member of bucket k lies in [min + k * size, min + (k + 1) * size), the range the writers label bucket k with, except that the last bucket reaches up to max |
| Buckets.BucketLengthsSum | src/lib.rs:260-267 | the bucket sizes add up to the number of samples: every sample is kept exactly once |
| Buckets.BucketMembers | src/lib.rs:260-267 | a value is in bucket k exactly when it is a sample whose index is k |
| Buckets.DegenerateSeriesInFirstBucket | src/lib.rs:258-266 | a series whose max equals its min puts all its samples in bucket 0 and leaves the others empty |
| Buckets.BucketSeries | src/lib.rs:257-273 | one pass of the outer loop: width (max - min) / bucket_count, bucket_count buckets, each holding its samples in order, total size the series length |
| Buckets.BucketSamples | src/lib.rs:252-275 | one bucketed record per series, in order, each with the facts of `BucketSeries` |
| Statistics.SortedCopy | src/lib.rs:136-137 | the reference ascending order of a series: sorted and a permutation of the samples |
| Statistics.SortedUnique | src/lib.rs:136-137 | two sorted permutations of the same samples are equal, so the sorted copy is determined by the samples |
| Statistics.SortInPlace | src/lib.rs:136-137 | the in-place sort leaves the array sorted and a permutation of its old contents |
| Statistics.PercentileIndex | src/lib.rs:140 | the definition: requires n >= 1 (the source's `len() - 1` underflows on an empty series); the index ((n - 1) * percentile) / 100; its properties are `PercentileIndexInRange` and `ExtremePercentiles` |
| Statistics.PercentileIndexInRange | src/lib.rs:139-142 | the nearest-rank index ((n - 1) * p) / 100 is within the series for p <= 100 |
| Statistics.NearestRank | src/lib.rs:139-142 | `get_percentile` on a non-empty sorted series and a percentile <= 100 always returns one of the samples; ordering and end points in `NearestRankMonotone` and `ExtremePercentiles` |
| Statistics.NearestRankMonotone | src/lib.rs:139-142 | on a sorted series a higher percentile never gives a smaller value |
| Statistics.ExtremePercentiles | src/lib.rs:139-142 | percentile 0 is the running minimum of the series and percentile 100 its running maximum |
| Statistics.Rank | src/lib.rs:146 | the rank k * 100 / (count - 1) of an index below the count is at most 100 |
| Statistics.RanksSpan | src/lib.rs:145-147 | the ranks start at 0, end at 100 and never decrease |
| Statistics.Percentiles | src/lib.rs:145-150 | percentile_count pairs of evenly spaced rank and nearest-rank value; ranks and values never decrease; the first rank is 0 and the last 100; every value is a sample |
| Statistics.MeanWithinRange | src/lib.rs:161 | the mean sum / n lies between the series' minimum and maximum |
| Statistics.SquaredDeviationsNonNegative | src/lib.rs:164-167 | the sum of squared deviations is never negative |
| Statistics.Variance | src/lib.rs:164-167 | the dispersion loop computes the sum of squared deviations over n, which is never negative |
| Statistics.CalculateStats | src/lib.rs:130-178 | percentiles as in `Percentiles` on the sorted samples; each value is a sample; iqr_lower, median and iqr_upper are the 25th, 50th and 75th nearest-rank values, in that order; iqr_range is non-negative; the mean is sum / n and lies in [min, max]; "stdev" is the population variance and is non-negative |

## Left out

- `process_input`, the CSV and ASCII writers of samples, buckets and stats, and the command-line front end: I/O and formatting outside the engine.
- IEEE-754 effects: rounding, NaN and infinities produced by ill-ordered or degenerate tasks, and `f64::total_cmp` ordering of NaN. Reals are exact. The only infinities modelled are the ±infinity start values of the running minimum and maximum, plus the f64 branch choice and index cast where max == min.
- `thread_rng` and `gen_range(0.0..=1.0)`: replaced by the draws they yield, which are assumed to lie in [0, 1].
- `f64::sqrt` and `str::parse::<f64>`: parameters. An unparseable number panics in the source; the model applies `parse` to any cell.
- `to_lowercase`: modelled as ASCII case folding. Non-ASCII letters are kept; this does not affect matching the four ASCII column names.
- Sampler.InvCdf: the source's `assert!` on the probability is a precondition, not a reported error.
- TaskCsv.ParseTasksFromCsv: a line with too few cells panics in the source; the model requires every task line to cover the header's columns.
- Statistics.PercentileIndexInRange, Statistics.ExtremePercentiles, Statistics.Rank, Statistics.Percentiles and Statistics.CalculateStats: the index arithmetic `((n - 1) * percentile) / 100` and `percentile_idx * 100` is `usize` in the source, modelled here on unbounded integers. The library is built for WebAssembly, where `usize` has 32 bits. From about 42.9 million samples, `(n - 1) * 100` overflows: a release build wraps, so percentile 100 need not be the maximum, and a debug build panics. A percentile count near 43 million overflows the rank the same way. The proofs hold only below these sizes.
- Statistics.CalculateStats: the result is returned without the `io::Result` wrapper, which is always `Ok`. An empty series and a percentile count of 1 panic in the source and are preconditions.
- Buckets.BucketSamples: a bucket count of 0 with a non-empty series panics in the source and is excluded by the precondition.
- References between records (`&Task`, `&SampledTask`) are modelled by value.
- Statistical claims (that the samples follow the triangular distribution, convergence of the percentiles): beyond what a verifier of single runs can state.

=== FILE: Buckets.dfy ===
/** `bucket_samples`: each series is cut into `bucket_count` equal-width buckets
    spanning its observed range. The raw index of a sample is clamped to the last
    bucket, so the maximum sample (whose raw index is `bucket_count`) and every
    other sample land in exactly one bucket. */
module Buckets {
  import opened Types
  import opened MonteCarlo

  /** The buckets of one series, and their width. */
  datatype BucketedSamples = BucketedSamples(sampledTask: SampledTask, buckets: seq<seq<real>>, bucketSize: ExtReal)

  /** `(max - min) / bucket_count` in f64. An empty series still has min = +infinity
      and max = -infinity, so its width is -infinity. */
  function BucketWidth(t: SampledTask, bucketCount: nat): (r: ExtReal)
    requires t.Valid()
    requires bucketCount >= 1 || |t.samples| == 0
    ensures r.Fin? <==> |t.samples| > 0
    ensures !r.Fin? ==> r == NegInf
    ensures r.Fin? ==> t.min.Fin? && t.max.Fin? && 0.0 <= r.value
    ensures r.Fin? ==> r.value * bucketCount as real == t.max.value - t.min.value
  {
    if |t.samples| == 0 then NegInf
    else
      MinOfIsMinimum(t.samples);
      MaxOfIsMaximum(t.samples);
      Fin((t.max.value - t.min.value) / bucketCount as real)
  }

  /** `usize::min(((sample - min) / bucket_size) as usize, bucket_count - 1)`.
      The f64-to-usize cast truncates toward zero and saturates: a negative
      quotient, NaN (0/0, the case of a series whose samples are all equal) and
      -infinity give 0, and +infinity gives usize::MAX, which the clamp brings
      down to the last bucket. */
  function BucketIndex(sample: real, min: real, width: real, bucketCount: nat): (k: nat)
    requires bucketCount >= 1
    ensures k < bucketCount
  {
    var raw: nat :=
      if width == 0.0 then (if sample - min > 0.0 then bucketCount - 1 else 0)
      else
        var q := (sample - min) / width;
        if q <= 0.0 then 0 else q.Floor;
    if raw < bucketCount - 1 then raw else bucketCount - 1
  }

  /** `y` lies in the k-th of `bucketCount` intervals [lo + k * w, lo + (k + 1) * w);
      the last interval has no upper bound here, since the last bucket also takes
      the maximum and every value the clamp brings down. */
  predicate InBucketInterval(y: real, lo: real, w: real, k: nat, bucketCount: nat)
  {
    lo + k as real * w <= y && (k < bucketCount - 1 ==> y < lo + (k + 1) as real * w)
  }

  /** From x = min + q * width: a multiple of the width at most q stays at or
      below x, and one above q goes beyond x. */
  lemma ScaledOffset(x: real, min: real, width: real, q: real, a: real)
    requires width > 0.0 && q * width == x - min
    ensures a <= q ==> min + a * width <= x
    ensures q < a ==> x < min + a * width
  {
    if a <= q {
      assert (q - a) * width >= 0.0;
    } else {
      assert (a - q) * width > 0.0;
    }
  }

  /** With a positive width, a sample at or above `min` goes to the bucket whose
      interval [min + k * width, min + (k + 1) * width) holds it; the last bucket
      is closed above, since it also takes every sample beyond its interval. */
  lemma BucketIndexInterval(x: real, min: real, width: real, bucketCount: nat)
    requires bucketCount >= 1 && width > 0.0 && min <= x
    ensures InBucketInterval(x, min, width, BucketIndex(x, min, width, bucketCount), bucketCount)
  {
    var q := (x - min) / width;
    assert q * width == x - min;
    var k := BucketIndex(x, min, width, bucketCount);
    if q <= 0.0 {
      assert k == 0 && q == 0.0;
    } else {
      var f := q.Floor;
      assert f as real <= q < (f + 1) as real;
      assert k <= f;
      ScaledOffset(x, min, width, q, k as real);
      if k < bucketCount - 1 {
        assert k == f;
        ScaledOffset(x, min, width, q, (k + 1) as real);
      }
    }
  }

  /** The samples of `xs` whose index is `k`, in their order in `xs`. */
  function BucketOf(xs: seq<real>, min: real, width: real, bucketCount: nat, k: nat): seq<real>
    requires bucketCount >= 1
  {
    if |xs| == 0 then []
    else
      var last := xs[|xs| - 1];
      BucketOf(xs[..|xs| - 1], min, width, bucketCount, k) +
        (if BucketIndex(last, min, width, bucketCount) == k then [last] else [])
  }

  /** Bucket `k` of a series, as the source fills it. */
  function SeriesBucket(t: SampledTask, bucketCount: nat, k: nat): seq<real>
    requires t.Valid() && bucketCount >= 1
  {
    if |t.samples| == 0 then []
    else
      MinOfIsMinimum(t.samples);
      BucketOf(t.samples, t.min.value, BucketWidth(t, bucketCount).value, bucketCount, k)
  }

  function TotalLength(buckets: seq<seq<real>>): nat
  {
    if |buckets| == 0 then 0 else TotalLength(buckets[..|buckets| - 1]) + |buckets[|buckets| - 1]|
  }

  /** Total size of the first `m` buckets. */
  function LengthsUpTo(xs: seq<real>, min: real, width: real, bucketCount: nat, m: nat): nat
    requires bucketCount >= 1
  {
    if m == 0 then 0
    else LengthsUpTo(xs, min, width, bucketCount, m - 1) + |BucketOf(xs, min, width, bucketCount, m - 1)|
  }

  lemma {:induction false} LengthsUpToSnoc(xs: seq<real>, x: real, min: real, width: real, bucketCount: nat, m: nat)
    requires bucketCount >= 1
    ensures LengthsUpTo(xs + [x], min, width, bucketCount, m) ==
      LengthsUpTo(xs, min, width, bucketCount, m) + (if BucketIndex(x, min, width, bucketCount) < m then 1 else 0)
  {
    if m > 0 {
      LengthsUpToSnoc(xs, x, min, width, bucketCount, m - 1);
      assert (xs + [x])[..|xs|] == xs;
    }
  }

  /** The buckets partition the samples: their sizes add up to the series length. */
  lemma {:induction false} BucketLengthsSum(xs: seq<real>, min: real, width: real, bucketCount: nat)
    requires bucketCount >= 1
    ensures LengthsUpTo(xs, min, width, bucketCount, bucketCount) == |xs|
  {
    if |xs| > 0 {
      var init, last := xs[..|xs| - 1], xs[|xs| - 1];
      BucketLengthsSum(init, min, width, bucketCount);
      LengthsUpToSnoc(init, last, min, width, bucketCount, bucketCount);
      assert init + [last] == xs;
    } else {
      LengthsUpToEmpty(min, width, bucketCount, bucketCount);
    }
  }

  lemma {:induction false} LengthsUpToEmpty(min: real, width: real, bucketCount: nat, m: nat)
    requires bucketCount >= 1
    ensures LengthsUpTo([], min, width, bucketCount, m) == 0
  {
    if m > 0 {
      LengthsUpToEmpty(min, width, bucketCount, m - 1);
    }
  }

  lemma {:induction false} TotalLengthOfBuckets(buckets: seq<seq<real>>, xs: seq<real>, min: real, width: real, bucketCount: nat)
    requires bucketCount >= 1
    requires forall k :: 0 <= k < |buckets| ==> buckets[k] == BucketOf(xs, min, width, bucketCount, k)
    ensures TotalLength(buckets) == LengthsUpTo(xs, min, width, bucketCount, |buckets|)
  {
    if |buckets| > 0 {
      var n := |buckets| - 1;
      assert forall k :: 0 <= k < n ==> buckets[..n][k] == buckets[k];
      TotalLengthOfBuckets(buckets[..n], xs, min, width, bucketCount);
    }
  }

  /** A sample is in bucket k exactly when it is a sample whose index is k. */
  lemma {:induction false} BucketMembers(xs: seq<real>, min: real, width: real, bucketCount: nat, k: nat, x: real)
    requires bucketCount >= 1
    ensures x in BucketOf(xs, min, width, bucketCount, k) <==>
      x in xs && BucketIndex(x, min, width, bucketCount) == k
  {
    if |xs| > 0 {
      var init, last := xs[..|xs| - 1], xs[|xs| - 1];
      BucketMembers(init, min, width, bucketCount, k, x);
      assert xs == init + [last];
    }
  }

  lemma {:induction false} AllInFirstBucket(xs: seq<real>, min: real, width: real, bucketCount: nat, k: nat)
    requires bucketCount >= 1
    requires forall i :: 0 <= i < |xs| ==> BucketIndex(xs[i], min, width, bucketCount) == 0
    ensures BucketOf(xs, min, width, bucketCount, k) == if k == 0 then xs else []
  {
    if |xs| > 0 {
      var init := xs[..|xs| - 1];
      assert forall i :: 0 <= i < |init| ==> init[i] == xs[i];
      AllInFirstBucket(init, min, width, bucketCount, k);
      assert init + [xs[|xs| - 1]] == xs;
    }
  }

  /** A series whose samples are not all equal has a positive bucket width. */
  lemma WidthPositive(t: SampledTask, bucketCount: nat)
    requires t.Valid() && bucketCount >= 1 && |t.samples| > 0
    requires t.min.Fin? && t.max.Fin? && t.min.value < t.max.value
    ensures BucketWidth(t, bucketCount).value > 0.0
  {
    var a := t.max.value - t.min.value;
    assert BucketWidth(t, bucketCount).value == a / bucketCount as real;
  }

  /** Every member of bucket k of samples in [lo, hi], cut into bucketCount
      intervals of positive width w, lies in the k-th interval. */
  lemma BucketOfInterval(xs: seq<real>, lo: real, hi: real, w: real, bucketCount: nat, k: nat, y: real)
    requires bucketCount >= 1 && w > 0.0
    requires forall i :: 0 <= i < |xs| ==> lo <= xs[i] <= hi
    requires y in BucketOf(xs, lo, w, bucketCount, k)
    ensures InBucketInterval(y, lo, w, k, bucketCount) && y <= hi
  {
    BucketMembers(xs, lo, w, bucketCount, k, y);
    BucketIndexInterval(y, lo, w, bucketCount);
  }

  /** Every sample in bucket k of a series whose samples are not all equal lies
      in that bucket's equal-width interval, the range the writers label the
      bucket with (`min + size * idx`). */
  lemma SeriesBucketInterval(t: SampledTask, bucketCount: nat, k: nat, y: real)
    requires t.Valid() && bucketCount >= 1
    requires y in SeriesBucket(t, bucketCount, k)
    ensures t.min.Fin? && t.max.Fin? && BucketWidth(t, bucketCount).Fin?
    ensures t.min.value < t.max.value ==>
      InBucketInterval(y, t.min.value, BucketWidth(t, bucketCount).value, k, bucketCount) &&
      y <= t.max.value
  {
    MinOfIsMinimum(t.samples);
    MaxOfIsMaximum(t.samples);
    assert SeriesBucket(t, bucketCount, k) ==
      BucketOf(t.samples, t.min.value, BucketWidth(t, bucketCount).value, bucketCount, k);
    if t.min.value < t.max.value {
      WidthPositive(t, bucketCount);
      BucketOfInterval(t.samples, t.min.value, t.max.value, BucketWidth(t, bucketCount).value, bucketCount, k, y);
    }
  }



  /** A series whose maximum equals its minimum has width 0, and every sample goes
      to bucket 0. */
  lemma DegenerateSeriesInFirstBucket(t: SampledTask, bucketCount: nat)
    requires t.Valid() && bucketCount >= 1
    requires t.max == t.min
    ensures forall k :: 0 <= k < bucketCount ==>
      SeriesBucket(t, bucketCount, k) == if k == 0 then t.samples else []
  {
    if |t.samples| > 0 {
      MinOfIsMinimum(t.samples);
      MaxOfIsMaximum(t.samples);
      var lo := t.min.value;
      var w := BucketWidth(t, bucketCount).value;
      assert w == 0.0;
      forall k | 0 <= k < bucketCount
        ensures BucketOf(t.samples, lo, w, bucketCount, k) == if k == 0 then t.samples else []
      {
        AllInFirstBucket(t.samples, lo, w, bucketCount, k);
      }
    }
  }

  /** The buckets of one series (one pass of the source's outer loop). */
  method BucketSeries(t: SampledTask, bucketCount: nat) returns (b: BucketedSamples)
    requires t.Valid()
    requires bucketCount >= 1 || |t.samples| == 0
    ensures b.sampledTask == t && b.bucketSize == BucketWidth(t, bucketCount)
    ensures |b.buckets| == bucketCount
    ensures forall k :: 0 <= k < bucketCount ==> b.buckets[k] == SeriesBucket(t, bucketCount, k)
    ensures TotalLength(b.buckets) == |t.samples|
  {
    var bucketSize := BucketWidth(t, bucketCount);
    var buckets: seq<seq<real>> := seq(bucketCount, _ => []);
    if |t.samples| > 0 {
      MinOfIsMinimum(t.samples);
      var lo, w := t.min.value, bucketSize.value;
      for i := 0 to |t.samples|
        invariant |buckets| == bucketCount
        invariant forall k :: 0 <= k < bucketCount ==> buckets[k] == BucketOf(t.samples[..i], lo, w, bucketCount, k)
      {
        var sample := t.samples[i];
        var bucketIdx := BucketIndex(sample, lo, w, bucketCount);
        assert t.samples[..i + 1][..i] == t.samples[..i];
        buckets := buckets[bucketIdx := buckets[bucketIdx] + [sample]];
      }
      assert t.samples[..|t.samples|] == t.samples;
      TotalLengthOfBuckets(buckets, t.samples, lo, w, bucketCount);
      BucketLengthsSum(t.samples, lo, w, bucketCount);
    } else {
      TotalLengthOfEmpty(buckets);
    }
    b := BucketedSamples(t, buckets, bucketSize);
  }

  lemma {:induction false} TotalLengthOfEmpty(buckets: seq<seq<real>>)
    requires forall k :: 0 <= k < |buckets| ==> buckets[k] == []
    ensures TotalLength(buckets) == 0
  {
    if |buckets| > 0 {
      var n := |buckets| - 1;
      assert forall k :: 0 <= k < n ==> buckets[..n][k] == buckets[k];
      TotalLengthOfEmpty(buckets[..n]);
    }
  }

  /** `bucket_samples`. A bucket count of 0 makes the source panic at the first
      sample, so it is admitted only when no series has one. */
  method BucketSamples(sampledTasks: seq<SampledTask>, bucketCount: nat) returns (r: seq<BucketedSamples>)
    requires forall j :: 0 <= j < |sampledTasks| ==> sampledTasks[j].Valid()
    requires bucketCount >= 1 || forall j :: 0 <= j < |sampledTasks| ==> |sampledTasks[j].samples| == 0
    ensures |r| == |sampledTasks|
    ensures forall j :: 0 <= j < |r| ==>
      r[j].sampledTask == sampledTasks[j] &&
      r[j].bucketSize == BucketWidth(sampledTasks[j], bucketCount) &&
      |r[j].buckets| == bucketCount &&
      TotalLength(r[j].buckets) == |sampledTasks[j].samples| &&
      forall k :: 0 <= k < bucketCount ==> r[j].buckets[k] == SeriesBucket(sampledTasks[j], bucketCount, k)
  {
    r := [];
    for j := 0 to |sampledTasks|
      invariant |r| == j
      invariant forall m :: 0 <= m < j ==>
        r[m].sampledTask == sampledTasks[m] &&
        r[m].bucketSize == BucketWidth(sampledTasks[m], bucketCount) &&
        |r[m].buckets| == bucketCount &&
        TotalLength(r[m].buckets) == |sampledTasks[m].samples| &&
        forall k :: 0 <= k < bucketCount ==> r[m].buckets[k] == SeriesBucket(sampledTasks[m], bucketCount, k)
    {
      var b := BucketSeries(sampledTasks[j], bucketCount);
      r := r + [b];
    }
  }
}

=== FILE: MonteCarlo.dfy ===
/** `run_monte_carlo`: one sample series per task, drawn through the triangular
    sampler, followed by a "Total" series whose i-th sample is the sum of every
    task's i-th sample. Each series carries its running minimum, maximum and sum.
    The random source is replaced by the draws it would yield: `draws[j]` holds,
    in order, the uniform values taken while sampling task j. */
module MonteCarlo {
  import opened Types
  import opened Sampler

  /** One series. `min` and `max` start at +infinity and -infinity, so an empty
      series keeps the infinities; `task` is the estimate it was drawn from. */
  datatype SampledTask = SampledTask(samples: seq<real>, min: ExtReal, max: ExtReal, sum: real, task: Task)
  {
    /** The reductions are those of the samples. The fields are private to the
        source's library and only `run_monte_carlo` builds the record, so this
        holds of every series a caller can hold. */
    predicate Valid()
    {
      min == MinOf(samples) && max == MaxOf(samples) && sum == SumOf(samples)
    }
  }

  /** The running minimum: f64::min folded from +infinity, left to right. */
  function MinOf(xs: seq<real>): ExtReal
  {
    if |xs| == 0 then PosInf else MinOf(xs[..|xs| - 1]).MinWith(xs[|xs| - 1])
  }

  /** The running maximum: f64::max folded from -infinity, left to right. */
  function MaxOf(xs: seq<real>): ExtReal
  {
    if |xs| == 0 then NegInf else MaxOf(xs[..|xs| - 1]).MaxWith(xs[|xs| - 1])
  }

  /** The running sum, left to right from 0. */
  function SumOf(xs: seq<real>): real
  {
    if |xs| == 0 then 0.0 else SumOf(xs[..|xs| - 1]) + xs[|xs| - 1]
  }

  /** The running minimum is +infinity exactly for the empty series, and otherwise
      a sample that no sample is below. */
  lemma {:induction false} MinOfIsMinimum(xs: seq<real>)
    ensures MinOf(xs) == PosInf <==> |xs| == 0
    ensures |xs| > 0 ==>
      MinOf(xs).Fin? && MinOf(xs).value in xs &&
      forall i :: 0 <= i < |xs| ==> MinOf(xs).value <= xs[i]
  {
    if |xs| > 0 {
      var init := xs[..|xs| - 1];
      MinOfIsMinimum(init);
      assert forall i :: 0 <= i < |init| ==> init[i] == xs[i];
      if |init| > 0 {
        assert MinOf(init).value in xs;
      }
    }
  }

  /** The running maximum is -infinity exactly for the empty series, and otherwise
      a sample that no sample is above. */
  lemma {:induction false} MaxOfIsMaximum(xs: seq<real>)
    ensures MaxOf(xs) == NegInf <==> |xs| == 0
    ensures |xs| > 0 ==>
      MaxOf(xs).Fin? && MaxOf(xs).value in xs &&
      forall i :: 0 <= i < |xs| ==> xs[i] <= MaxOf(xs).value
  {
    if |xs| > 0 {
      var init := xs[..|xs| - 1];
      MaxOfIsMaximum(init);
      assert forall i :: 0 <= i < |init| ==> init[i] == xs[i];
      if |init| > 0 {
        assert MaxOf(init).value in xs;
      }
    }
  }

  lemma SnocPrefix(xs: seq<real>, x: real)
    ensures (xs + [x])[..|xs|] == xs
  {
  }

  predicate InUnitInterval(ds: seq<real>)
  {
    forall i :: 0 <= i < |ds| ==> 0.0 <= ds[i] <= 1.0
  }

  /** The inner loop of `run_monte_carlo` for one task: one sample per draw, with
      the reductions kept alongside. */
  method SampleTask(task: Task, draws: seq<real>, sqrt: real -> real) returns (st: SampledTask)
    requires InUnitInterval(draws)
    ensures st.task == task && st.Valid()
    ensures |st.samples| == |draws|
    ensures forall i :: 0 <= i < |draws| ==>
      st.samples[i] == InvCdf(sqrt, draws[i], task.min, task.mode, task.max)
  {
    var samples: seq<real> := [];
    var min, max, sum := PosInf, NegInf, 0.0;
    for i := 0 to |draws|
      invariant |samples| == i
      invariant forall k :: 0 <= k < i ==> samples[k] == InvCdf(sqrt, draws[k], task.min, task.mode, task.max)
      invariant min == MinOf(samples) && max == MaxOf(samples) && sum == SumOf(samples)
    {
      var sampleValue := InvCdf(sqrt, draws[i], task.min, task.mode, task.max);
      SnocPrefix(samples, sampleValue);
      min := min.MinWith(sampleValue);
      max := max.MaxWith(sampleValue);
      sum := sum + sampleValue;
      samples := samples + [sampleValue];
    }
    st := SampledTask(samples, min, max, sum, task);
  }

  predicate AllHaveSample(series: seq<SampledTask>, i: nat)
  {
    forall j :: 0 <= j < |series| ==> i < |series[j].samples|
  }

  /** The i-th samples of the series added left to right from 0. */
  function ColumnSum(series: seq<SampledTask>, i: nat): real
    requires AllHaveSample(series, i)
  {
    if |series| == 0 then 0.0
    else ColumnSum(series[..|series| - 1], i) + series[|series| - 1].samples[i]
  }

  /** The inner loop that builds one total: `tasks_sum += task_sample.samples[i]`. */
  method SumColumn(series: seq<SampledTask>, i: nat) returns (tasksSum: real)
    requires AllHaveSample(series, i)
    ensures tasksSum == ColumnSum(series, i)
  {
    tasksSum := 0.0;
    for j := 0 to |series|
      invariant tasksSum == ColumnSum(series[..j], i)
    {
      assert series[..j + 1][..j] == series[..j];
      tasksSum := tasksSum + series[j].samples[i];
    }
    assert series[..|series|] == series;
  }

  function SumOfMins(tasks: seq<Task>): real
  {
    if |tasks| == 0 then 0.0 else SumOfMins(tasks[..|tasks| - 1]) + tasks[|tasks| - 1].min
  }

  function SumOfMaxs(tasks: seq<Task>): real
  {
    if |tasks| == 0 then 0.0 else SumOfMaxs(tasks[..|tasks| - 1]) + tasks[|tasks| - 1].max
  }

  /** A total lies between the sum of the tasks' minimums and the sum of their
      maximums when every task's sample lies within its own bounds. */
  lemma {:induction false} ColumnSumBounds(series: seq<SampledTask>, tasks: seq<Task>, i: nat)
    requires |series| == |tasks|
    requires AllHaveSample(series, i)
    requires forall j :: 0 <= j < |series| ==> tasks[j].min <= series[j].samples[i] <= tasks[j].max
    ensures SumOfMins(tasks) <= ColumnSum(series, i) <= SumOfMaxs(tasks)
  {
    if |series| > 0 {
      var n := |series| - 1;
      assert forall j :: 0 <= j < n ==> series[..n][j] == series[j] && tasks[..n][j] == tasks[j];
      ColumnSumBounds(series[..n], tasks[..n], i);
    }
  }

  predicate DrawsFit(draws: seq<seq<real>>, taskCount: nat, sampleCount: nat)
  {
    |draws| == taskCount &&
    forall j :: 0 <= j < |draws| ==> |draws[j]| == sampleCount && InUnitInterval(draws[j])
  }

  /** The second half of `run_monte_carlo`: the "Total" series, whose i-th
      sample is the sum of every series' i-th sample. */
  method TotalSeries(series: seq<SampledTask>, sampleCount: nat, totalTask: Task) returns (st: SampledTask)
    requires forall j :: 0 <= j < |series| ==> |series[j].samples| == sampleCount
    ensures st.task == totalTask && st.Valid() && |st.samples| == sampleCount
    ensures forall i :: 0 <= i < sampleCount ==> AllHaveSample(series, i) && st.samples[i] == ColumnSum(series, i)
  {
    var taskSums: seq<real> := [];
    var min, max, totalSum := PosInf, NegInf, 0.0;
    for i := 0 to sampleCount
      invariant |taskSums| == i
      invariant forall k :: 0 <= k < i ==> AllHaveSample(series, k) && taskSums[k] == ColumnSum(series, k)
      invariant min == MinOf(taskSums) && max == MaxOf(taskSums) && totalSum == SumOf(taskSums)
    {
      var tasksSum := SumColumn(series, i);
      SnocPrefix(taskSums, tasksSum);
      min := min.MinWith(tasksSum);
      max := max.MaxWith(tasksSum);
      totalSum := totalSum + tasksSum;
      taskSums := taskSums + [tasksSum];
    }
    st := SampledTask(taskSums, min, max, totalSum, totalTask);
  }

  /** A total of sampled well-ordered tasks lies between the summed bounds. */
  lemma SampledColumnBounds(series: seq<SampledTask>, tasks: seq<Task>, draws: seq<seq<real>>,
                            sqrt: real -> real, sampleCount: nat, i: nat)
    requires IsSqrt(sqrt) && DrawsFit(draws, |tasks|, sampleCount) && i < sampleCount
    requires |series| == |tasks|
    requires forall j :: 0 <= j < |tasks| ==> tasks[j].WellOrdered()
    requires forall j :: 0 <= j < |series| ==> |series[j].samples| == sampleCount
    requires forall j, k :: 0 <= j < |tasks| && 0 <= k < sampleCount ==>
      series[j].samples[k] == InvCdf(sqrt, draws[j][k], tasks[j].min, tasks[j].mode, tasks[j].max)
    ensures AllHaveSample(series, i)
    ensures SumOfMins(tasks) <= ColumnSum(series, i) <= SumOfMaxs(tasks)
  {
    forall j | 0 <= j < |tasks|
      ensures tasks[j].min <= series[j].samples[i] <= tasks[j].max
    {
      InvCdfWithinBounds(sqrt, draws[j][i], tasks[j].min, tasks[j].mode, tasks[j].max);
    }
    ColumnSumBounds(series, tasks, i);
  }

  /** `run_monte_carlo`. */
  method RunMonteCarlo(tasks: seq<Task>, sampleCount: nat, totalTask: Task, draws: seq<seq<real>>, sqrt: real -> real)
    returns (sampledTasks: seq<SampledTask>)
    requires DrawsFit(draws, |tasks|, sampleCount)
    ensures |sampledTasks| == |tasks| + 1
    ensures forall j :: 0 <= j < |sampledTasks| ==>
      sampledTasks[j].Valid() && |sampledTasks[j].samples| == sampleCount
    ensures forall j :: 0 <= j < |tasks| ==> sampledTasks[j].task == tasks[j]
    ensures forall j, i :: 0 <= j < |tasks| && 0 <= i < sampleCount ==>
      sampledTasks[j].samples[i] == InvCdf(sqrt, draws[j][i], tasks[j].min, tasks[j].mode, tasks[j].max)
    ensures sampledTasks[|tasks|].task == totalTask
    ensures forall i :: 0 <= i < sampleCount ==>
      sampledTasks[|tasks|].samples[i] == ColumnSum(sampledTasks[..|tasks|], i)
    ensures |tasks| == 0 ==> forall i :: 0 <= i < sampleCount ==> sampledTasks[0].samples[i] == 0.0
    ensures IsSqrt(sqrt) && (forall j :: 0 <= j < |tasks| ==> tasks[j].WellOrdered()) ==>
      forall i :: 0 <= i < sampleCount ==>
        SumOfMins(tasks) <= sampledTasks[|tasks|].samples[i] <= SumOfMaxs(tasks)
  {
    var series: seq<SampledTask> := [];
    for j := 0 to |tasks|
      invariant |series| == j
      invariant forall k :: 0 <= k < j ==>
        series[k].task == tasks[k] && series[k].Valid() && |series[k].samples| == sampleCount
      invariant forall k, i :: 0 <= k < j && 0 <= i < sampleCount ==>
        series[k].samples[i] == InvCdf(sqrt, draws[k][i], tasks[k].min, tasks[k].mode, tasks[k].max)
    {
      var st := SampleTask(tasks[j], draws[j], sqrt);
      series := series + [st];
    }

    var total := TotalSeries(series, sampleCount, totalTask);
    sampledTasks := series + [total];
    assert sampledTasks[..|tasks|] == series;

    if IsSqrt(sqrt) && (forall j :: 0 <= j < |tasks| ==> tasks[j].WellOrdered()) {
      forall i | 0 <= i < sampleCount
        ensures SumOfMins(tasks) <= total.samples[i] <= SumOfMaxs(tasks)
      {
        SampledColumnBounds(series, tasks, draws, sqrt, sampleCount, i);
      }
    }
  }
}

=== FILE: Sampler.dfy ===
/** `triangular_distribution_inv_cdf`: the closed-form inverse of the triangular
    distribution's cumulative distribution function, over the reals. The square
    root is a parameter; `IsSqrt` states the two facts about it the proofs use. */
module Sampler {

  /** `sqrt` is a square root on the non-negative reals. */
  ghost predicate IsSqrt(sqrt: real -> real)
  {
    forall x :: 0.0 <= x ==> 0.0 <= sqrt(x) && sqrt(x) * sqrt(x) == x
  }

  /** `probability <= cdf_at_mode`, where cdf_at_mode = (mode - min) / (max - min)
      in f64. When max == min the quotient is +infinity for mode > min, and NaN
      or -infinity otherwise, and no probability compares below those. */
  predicate TakesLowerBranch(p: real, min: real, mode: real, max: real)
  {
    if max - min != 0.0 then p <= (mode - min) / (max - min)
    else mode - min > 0.0
  }

  /** The sample at probability `p` (the source asserts 0 <= p <= 1). */
  function InvCdf(sqrt: real -> real, p: real, min: real, mode: real, max: real): real
    requires 0.0 <= p <= 1.0
  {
    if TakesLowerBranch(p, min, mode, max) then
      min + sqrt(p * (mode - min) * (max - min))
    else
      max - sqrt((max - min) * (max - mode) * (1.0 - p))
  }

  lemma SquareStrict(d: real, s: real)
    requires 0.0 <= d < s
    ensures d * d < s * s
  {
    var x, y, z := d * d, d * s, s * s;
    assert x <= y;
    assert y < z;
  }

  lemma SquareMonotone(s: real, d: real)
    requires 0.0 <= s && 0.0 <= d
    ensures s * s <= d * d ==> s <= d
    ensures s * s < d * d ==> s < d
  {
    if d < s {
      SquareStrict(d, s);
    }
  }

  /** Below a square: a root of something at most d*d is at most d (strictly
      below when the radicand is). */
  lemma SqrtBelow(sqrt: real -> real, y: real, d: real)
    requires IsSqrt(sqrt)
    requires 0.0 <= y && 0.0 <= d
    ensures y <= d * d ==> sqrt(y) <= d
    ensures y < d * d ==> sqrt(y) < d
  {
    SquareMonotone(sqrt(y), d);
  }

  lemma SqrtOfSquare(sqrt: real -> real, d: real)
    requires IsSqrt(sqrt)
    requires 0.0 <= d
    ensures sqrt(d * d) == d
  {
    var s := sqrt(d * d);
    SquareMonotone(s, d);
    SquareMonotone(d, s);
  }

  /** The radicand of the lower branch, for max > min: never negative, at most
      (mode - min)^2 on that branch, and exactly that at the mode's probability. */
  lemma LowerRadicand(p: real, min: real, mode: real, max: real)
    requires 0.0 <= p && min <= mode && min < max
    ensures 0.0 <= p * (mode - min) * (max - min)
    ensures p <= (mode - min) / (max - min) ==>
      p * (mode - min) * (max - min) <= (mode - min) * (mode - min)
    ensures p == (mode - min) / (max - min) ==>
      p * (mode - min) * (max - min) == (mode - min) * (mode - min)
  {
    var a, w := mode - min, max - min;
    var y, pw, f := p * a * w, p * w, a / w;
    assert y == a * pw;
    assert 0.0 <= pw;
    assert f * w == a;
    if p <= f {
      var fw := f * w;
      assert pw <= fw;
      assert a * pw <= a * a;
    }
  }

  /** The radicand of the upper branch, for max > min: never negative, and below
      (max - mode)^2 on that branch. */
  lemma UpperRadicand(p: real, min: real, mode: real, max: real)
    requires 0.0 <= p <= 1.0 && min <= mode <= max && min < max
    ensures 0.0 <= (max - min) * (max - mode) * (1.0 - p)
    ensures (mode - min) / (max - min) < p ==>
      (max - min) * (max - mode) * (1.0 - p) < (max - mode) * (max - mode)
  {
    var a, b, w, q := mode - min, max - mode, max - min, 1.0 - p;
    var y, qw, f := w * b * q, q * w, a / w;
    assert y == b * qw;
    assert 0.0 <= qw;
    assert 0.0 <= b * qw;
    assert f * w == a;
    if f < p {
      var g := 1.0 - f;
      var gw := g * w;
      assert q < g;
      assert qw < gw;
      assert gw == w - a;
      assert qw < b;
      assert b * qw < b * b;
    }
  }

  /** Every sample of a well-ordered estimate lies between its minimum and maximum. */
  lemma InvCdfWithinBounds(sqrt: real -> real, p: real, min: real, mode: real, max: real)
    requires IsSqrt(sqrt)
    requires 0.0 <= p <= 1.0
    requires min <= mode <= max
    ensures min <= InvCdf(sqrt, p, min, mode, max) <= max
  {
    if max - min == 0.0 {
      InvCdfDegenerate(sqrt, p, min, mode, max);
    } else if TakesLowerBranch(p, min, mode, max) {
      LowerRadicand(p, min, mode, max);
      SquareMonotoneConverse(mode - min, max - min);
      SqrtBelow(sqrt, p * (mode - min) * (max - min), max - min);
    } else {
      UpperRadicand(p, min, mode, max);
      SquareMonotoneConverse(max - mode, max - min);
      SqrtBelow(sqrt, (max - min) * (max - mode) * (1.0 - p), max - min);
    }
  }

  lemma SquareMonotoneConverse(s: real, d: real)
    requires 0.0 <= s <= d
    ensures s * s <= d * d
  {
    if s < d {
      SquareStrict(s, d);
    }
  }

  /** With max == min every probability yields min, whatever the mode: the f64
      quotient at the mode is infinite or NaN, and both radicands are 0. */
  lemma InvCdfDegenerate(sqrt: real -> real, p: real, min: real, mode: real, max: real)
    requires IsSqrt(sqrt)
    requires 0.0 <= p <= 1.0
    requires min == max
    ensures InvCdf(sqrt, p, min, mode, max) == min
  {
    SqrtOfSquare(sqrt, 0.0);
    assert p * (mode - min) * (max - min) == 0.0;
    assert (max - min) * (max - mode) * (1.0 - p) == 0.0;
  }

  lemma InvCdfLower(sqrt: real -> real, p: real, min: real, mode: real, max: real)
    requires 0.0 <= p <= 1.0 && TakesLowerBranch(p, min, mode, max)
    ensures InvCdf(sqrt, p, min, mode, max) == min + sqrt(p * (mode - min) * (max - min))
  {
  }

  lemma InvCdfUpper(sqrt: real -> real, p: real, min: real, mode: real, max: real)
    requires 0.0 <= p <= 1.0 && !TakesLowerBranch(p, min, mode, max)
    ensures InvCdf(sqrt, p, min, mode, max) == max - sqrt((max - min) * (max - mode) * (1.0 - p))
  {
  }

  lemma ScaleAtLeastOne(f: real, w: real)
    requires 0.0 < w
    ensures 1.0 <= f ==> w <= f * w
  {
    var g := f - 1.0;
    var gw := g * w;
    assert f * w == w + gw;
    if 0.0 <= g {
      assert 0.0 <= gw;
    }
  }

  lemma FractionBelowOne(a: real, w: real)
    requires 0.0 <= a < w
    ensures a / w < 1.0
  {
    var f := a / w;
    assert f * w == a;
    ScaleAtLeastOne(f, w);
  }

  lemma DivSelf(w: real)
    requires w != 0.0
    ensures w / w == 1.0
  {
  }

  /** Probability 0 gives the minimum and probability 1 the maximum. */
  lemma InvCdfEndpoints(sqrt: real -> real, min: real, mode: real, max: real)
    requires IsSqrt(sqrt)
    requires min <= mode <= max
    ensures InvCdf(sqrt, 0.0, min, mode, max) == min
    ensures InvCdf(sqrt, 1.0, min, mode, max) == max
  {
    if max - min == 0.0 {
      InvCdfDegenerate(sqrt, 0.0, min, mode, max);
      InvCdfDegenerate(sqrt, 1.0, min, mode, max);
    } else {
      InvCdfAtZero(sqrt, 0.0, min, mode, max);
      InvCdfAtOne(sqrt, 1.0, min, mode, max);
    }
  }

  lemma InvCdfAtZero(sqrt: real -> real, p: real, min: real, mode: real, max: real)
    requires IsSqrt(sqrt)
    requires p == 0.0 && min <= mode <= max && min < max
    ensures InvCdf(sqrt, p, min, mode, max) == min
  {
    var a, w := mode - min, max - min;
    var f := a / w;
    assert f * w == a;
    assert 0.0 <= f;
    assert TakesLowerBranch(p, min, mode, max);
    var y := p * (mode - min) * (max - min);
    assert y == 0.0 * 0.0;
    SqrtOfSquare(sqrt, 0.0);
    InvCdfLower(sqrt, p, min, mode, max);
  }

  lemma InvCdfAtOne(sqrt: real -> real, p: real, min: real, mode: real, max: real)
    requires IsSqrt(sqrt)
    requires p == 1.0 && min <= mode <= max && min < max
    ensures InvCdf(sqrt, p, min, mode, max) == max
  {
    var a, w := mode - min, max - min;
    if mode == max {
      DivSelf(w);
      assert TakesLowerBranch(p, min, mode, max);
      var y := p * (mode - min) * (max - min);
      assert y == w * w;
      SqrtOfSquare(sqrt, w);
      InvCdfLower(sqrt, p, min, mode, max);
    } else {
      FractionBelowOne(a, w);
      assert !TakesLowerBranch(p, min, mode, max);
      var y := (max - min) * (max - mode) * (1.0 - p);
      assert y == 0.0 * 0.0;
      SqrtOfSquare(sqrt, 0.0);
      InvCdfUpper(sqrt, p, min, mode, max);
    }
  }

  /** The branch splits the range at the mode: for max > min the sample is at
      most the mode exactly when p is at most the CDF's value at the mode, and
      the sample at that probability is the mode itself. */
  lemma InvCdfSplitsAtMode(sqrt: real -> real, p: real, min: real, mode: real, max: real)
    requires IsSqrt(sqrt)
    requires 0.0 <= p <= 1.0
    requires min <= mode <= max && min < max
    ensures TakesLowerBranch(p, min, mode, max) <==> p <= (mode - min) / (max - min)
    ensures InvCdf(sqrt, p, min, mode, max) <= mode <==> p <= (mode - min) / (max - min)
    ensures p == (mode - min) / (max - min) ==> InvCdf(sqrt, p, min, mode, max) == mode
  {
    if TakesLowerBranch(p, min, mode, max) {
      LowerBranchAtMost(sqrt, p, min, mode, max);
    } else {
      UpperBranchAbove(sqrt, p, min, mode, max);
    }
  }

  lemma LowerBranchAtMost(sqrt: real -> real, p: real, min: real, mode: real, max: real)
    requires IsSqrt(sqrt)
    requires 0.0 <= p <= 1.0
    requires min <= mode <= max && min < max
    requires TakesLowerBranch(p, min, mode, max)
    ensures InvCdf(sqrt, p, min, mode, max) <= mode
    ensures p == (mode - min) / (max - min) ==> InvCdf(sqrt, p, min, mode, max) == mode
  {
    var y, a := p * (mode - min) * (max - min), mode - min;
    InvCdfLower(sqrt, p, min, mode, max);
    LowerRadicand(p, min, mode, max);
    SqrtBelow(sqrt, y, a);
    if p == (mode - min) / (max - min) {
      SqrtOfSquare(sqrt, a);
      assert y == a * a;
      assert sqrt(y) == a;
    }
  }

  lemma UpperBranchAbove(sqrt: real -> real, p: real, min: real, mode: real, max: real)
    requires IsSqrt(sqrt)
    requires 0.0 <= p <= 1.0
    requires min <= mode <= max && min < max
    requires !TakesLowerBranch(p, min, mode, max)
    ensures mode < InvCdf(sqrt, p, min, mode, max)
  {
    var y, b := (max - min) * (max - mode) * (1.0 - p), max - mode;
    InvCdfUpper(sqrt, p, min, mode, max);
    UpperRadicand(p, min, mode, max);
    SqrtBelow(sqrt, y, b);
  }
}

=== FILE: Statistics.dfy ===
/** `calculate_stats`: nearest-rank percentiles of a sorted copy of one series,
    the interquartile range, the median, the mean and a dispersion value. The
    value the source names `stdev` is accumulated as the mean of the squared
    deviations and no square root is taken: it is the population variance. */
module Statistics {
  import opened MonteCarlo

  datatype Stats = Stats(
    iqrLower: real,
    iqrUpper: real,
    iqrRange: real,
    mean: real,
    median: real,
    stdev: real,
    percentiles: seq<(nat, real)>)

  predicate IsSorted(xs: seq<real>)
  {
    forall i, j :: 0 <= i < j < |xs| ==> xs[i] <= xs[j]
  }

  /** `x` put into place in a sorted sequence. */
  function Insert(x: real, xs: seq<real>): (r: seq<real>)
    ensures multiset(r) == multiset(xs) + multiset{x}
    ensures |r| == |xs| + 1
  {
    if xs == [] || x <= xs[0] then [x] + xs
    else
      assert xs == [xs[0]] + xs[1..];
      [xs[0]] + Insert(x, xs[1..])
  }

  lemma {:induction false} InsertSorted(x: real, xs: seq<real>)
    requires IsSorted(xs)
    ensures IsSorted(Insert(x, xs))
  {
    if xs != [] && x > xs[0] {
      var tail := xs[1..];
      SortedTail(xs);
      InsertSorted(x, tail);
      var r := Insert(x, tail);
      assert Insert(x, xs) == [xs[0]] + r;
      assert xs == [xs[0]] + tail;
      forall i | 0 <= i < |r|
        ensures xs[0] <= r[i]
      {
        assert r[i] in multiset(r);
        if r[i] != x {
          assert r[i] in multiset(xs);
          SortedHeadIsLeast(xs, r[i]);
        }
      }
      ConsSorted(xs[0], r);
    }
  }

  lemma ConsSorted(h: real, r: seq<real>)
    requires IsSorted(r)
    requires forall i :: 0 <= i < |r| ==> h <= r[i]
    ensures IsSorted([h] + r)
  {
    forall i, j | 0 <= i < j < |r| + 1
      ensures ([h] + r)[i] <= ([h] + r)[j]
    {
      if 0 < i {
        assert ([h] + r)[i] == r[i - 1];
      }
      assert ([h] + r)[j] == r[j - 1];
    }
  }

  /** Some position of a member. */
  function IndexIn(y: real, ys: seq<real>): (i: nat)
    requires y in ys
    ensures i < |ys| && ys[i] == y
  {
    if ys[0] == y then 0 else 1 + IndexIn(y, ys[1..])
  }

  /** The ascending order of a series: the reference the in-place sort is held to. */
  function SortedCopy(xs: seq<real>): (r: seq<real>)
    ensures IsSorted(r)
    ensures multiset(r) == multiset(xs)
    ensures |r| == |xs|
  {
    if xs == [] then []
    else
      assert xs == [xs[0]] + xs[1..];
      InsertSorted(xs[0], SortedCopy(xs[1..]));
      Insert(xs[0], SortedCopy(xs[1..]))
  }

  lemma SortedHeadIsLeast(a: seq<real>, x: real)
    requires IsSorted(a) && |a| > 0
    requires x in multiset(a)
    ensures a[0] <= x
  {
    var i :| 0 <= i < |a| && a[i] == x;
  }

  lemma SortedTail(a: seq<real>)
    requires IsSorted(a) && |a| > 0
    ensures IsSorted(a[1..])
  {
    forall i, j | 0 <= i < j < |a| - 1
      ensures a[1..][i] <= a[1..][j]
    {
      assert a[1..][i] == a[i + 1] && a[1..][j] == a[j + 1];
    }
  }

  /** There is only one ascending arrangement of a multiset of reals. */
  lemma {:induction false} SortedUnique(a: seq<real>, b: seq<real>)
    requires IsSorted(a) && IsSorted(b)
    requires multiset(a) == multiset(b)
    ensures a == b
  {
    assert |a| == |multiset(a)| == |multiset(b)| == |b|;
    if |a| > 0 {
      SortedHeadIsLeast(b, a[0]);
      SortedHeadIsLeast(a, b[0]);
      SortedTail(a);
      SortedTail(b);
      assert a[0] == b[0];
      assert a == [a[0]] + a[1..];
      assert b == [b[0]] + b[1..];
      assert multiset(a) == multiset{a[0]} + multiset(a[1..]);
      assert multiset(b) == multiset{b[0]} + multiset(b[1..]);
      assert multiset(a[1..]) == multiset(a) - multiset{a[0]};
      assert multiset(b[1..]) == multiset(b) - multiset{b[0]};
      SortedUnique(a[1..], b[1..]);
    }
  }

  /** `sorted_samples.sort_by(f64::total_cmp)` on the clone: insertion sort in place. */
  method SortInPlace(a: array<real>)
    modifies a
    ensures IsSorted(a[..])
    ensures multiset(a[..]) == multiset(old(a[..]))
  {
    var i := 0;
    while i < a.Length
      invariant 0 <= i <= a.Length
      invariant forall p, q :: 0 <= p < q < i ==> a[p] <= a[q]
      invariant multiset(a[..]) == multiset(old(a[..]))
    {
      SiftDown(a, i);
      i := i + 1;
    }
  }

  /** Moves a[i] left past the larger elements before it, by adjacent swaps, so
      that a[..i + 1] becomes sorted when a[..i] was. */
  method SiftDown(a: array<real>, i: nat)
    modifies a
    requires i < a.Length
    requires forall p, q :: 0 <= p < q < i ==> a[p] <= a[q]
    ensures forall p, q :: 0 <= p < q <= i ==> a[p] <= a[q]
    ensures multiset(a[..]) == multiset(old(a[..]))
  {
    var j := i;
    while j > 0 && a[j - 1] > a[j]
      invariant 0 <= j <= i
      invariant forall p, q :: 0 <= p < q <= i && p != j && q != j ==> a[p] <= a[q]
      invariant forall q :: j < q <= i ==> a[j] <= a[q]
      invariant multiset(a[..]) == multiset(old(a[..]))
    {
      Swap(a, j - 1, j);
      j := j - 1;
    }
  }

  method Swap(a: array<real>, i: nat, j: nat)
    modifies a
    requires i < j < a.Length
    ensures a[i] == old(a[j]) && a[j] == old(a[i])
    ensures forall m :: 0 <= m < a.Length && m != i && m != j ==> a[m] == old(a[m])
    ensures multiset(a[..]) == multiset(old(a[..]))
  {
    a[i], a[j] := a[j], a[i];
  }

  lemma MulMonotone(d: int, a: int, b: int)
    requires 0 <= d && a <= b
    ensures d * a <= d * b
  {
    var k := b - a;
    assert d * b == d * a + d * k;
  }

  lemma MulCancel(d: int, a: int, b: int)
    requires 0 < d && d * a < d * b
    ensures a < b
  {
    if b <= a {
      MulMonotone(d, b, a);
    }
  }

  lemma DivMonotone(x: nat, y: nat, d: nat)
    requires x <= y && 0 < d
    ensures x / d <= y / d
  {
    var qx, qy := x / d, y / d;
    assert d * qx <= x;
    assert y < d * (qy + 1);
    MulCancel(d, qx, qy + 1);
  }

  lemma MulDivCancel(x: nat, d: nat)
    requires 0 < d
    ensures (x * d) / d == x
  {
    var q := (x * d) / d;
    assert d * q <= d * x < d * (q + 1);
    MulCancel(d, q, x + 1);
    MulCancel(d, x, q + 1);
  }

  /** The lookup index of the `get_percentile` closure: ((n - 1) * p) / 100. */
  function PercentileIndex(n: nat, percentile: nat): nat
    requires n >= 1
  {
    ((n - 1) * percentile) / 100
  }

  lemma PercentileIndexInRange(n: nat, percentile: nat)
    requires 1 <= n && percentile <= 100
    ensures PercentileIndex(n, percentile) < n
  {
    MulMonotone(n - 1, percentile, 100);
    DivMonotone((n - 1) * percentile, (n - 1) * 100, 100);
    MulDivCancel(n - 1, 100);
  }

  lemma PercentileIndexMonotone(n: nat, p: nat, q: nat)
    requires 1 <= n && p <= q
    ensures PercentileIndex(n, p) <= PercentileIndex(n, q)
  {
    MulMonotone(n - 1, p, q);
    DivMonotone((n - 1) * p, (n - 1) * q, 100);
  }

  /** `get_percentile`: the nearest-rank value of a sorted series. */
  function NearestRank(sorted: seq<real>, percentile: nat): (r: real)
    requires |sorted| >= 1 && percentile <= 100
    ensures r in sorted
  {
    PercentileIndexInRange(|sorted|, percentile);
    sorted[PercentileIndex(|sorted|, percentile)]
  }

  /** On a sorted series a higher percentile never selects a smaller value. */
  lemma NearestRankMonotone(sorted: seq<real>, p: nat, q: nat)
    requires |sorted| >= 1 && IsSorted(sorted)
    requires p <= q <= 100
    ensures NearestRank(sorted, p) <= NearestRank(sorted, q)
  {
    PercentileIndexMonotone(|sorted|, p, q);
    PercentileIndexInRange(|sorted|, q);
  }

  /** Percentile 0 is the smallest sample and percentile 100 the largest: the
      running minimum and maximum the series carries. */
  lemma ExtremePercentiles(xs: seq<real>)
    requires |xs| >= 1
    ensures MinOf(xs).Fin? && MaxOf(xs).Fin?
    ensures NearestRank(SortedCopy(xs), 0) == MinOf(xs).value
    ensures NearestRank(SortedCopy(xs), 100) == MaxOf(xs).value
  {
    var s := SortedCopy(xs);
    NearestRankEnds(s);
    SortedFirstIsMin(s, xs);
    SortedLastIsMax(s, xs);
  }

  lemma NearestRankEnds(s: seq<real>)
    requires |s| >= 1
    ensures NearestRank(s, 0) == s[0] && NearestRank(s, 100) == s[|s| - 1]
  {
    PercentileIndexEnds(|s|);
  }

  lemma PercentileIndexEnds(n: nat)
    requires n >= 1
    ensures PercentileIndex(n, 0) == 0 && PercentileIndex(n, 100) == n - 1
  {
    MulDivCancel(n - 1, 100);
  }

  lemma SortedFirstIsMin(s: seq<real>, xs: seq<real>)
    requires |xs| >= 1 && |s| == |xs| && IsSorted(s) && multiset(s) == multiset(xs)
    ensures MinOf(xs).Fin? && s[0] == MinOf(xs).value
  {
    MinOfIsMinimum(xs);
    var m := MinOf(xs).value;
    var x := s[0];
    assert x in multiset(xs);
    assert m in multiset(s);
    assert x <= m by { SortedHeadIsLeast(s, m); }
    assert m <= x by { assert xs[IndexIn(x, xs)] == x; }
  }

  lemma SortedLastIsMax(s: seq<real>, xs: seq<real>)
    requires |xs| >= 1 && |s| == |xs| && IsSorted(s) && multiset(s) == multiset(xs)
    ensures MaxOf(xs).Fin? && s[|s| - 1] == MaxOf(xs).value
  {
    MaxOfIsMaximum(xs);
    var m := MaxOf(xs).value;
    var x := s[|s| - 1];
    assert x in multiset(xs);
    assert m in multiset(s);
    assert m <= x by { assert s[IndexIn(m, s)] == m; }
    assert x <= m by { assert xs[IndexIn(x, xs)] == x; }
  }

  /** The k-th of `count` evenly spaced percentile ranks: k * 100 / (count - 1). */
  function Rank(k: nat, count: nat): (r: nat)
    requires k < count && count >= 2
    ensures r <= 100
  {
    RankAtMostHundred(k, count);
    k * 100 / (count - 1)
  }

  lemma RankAtMostHundred(k: nat, count: nat)
    requires k < count && count >= 2
    ensures k * 100 / (count - 1) <= 100
  {
    MulMonotone(100, k, count - 1);
    DivMonotone(k * 100, (count - 1) * 100, count - 1);
    MulDivCancel(100, count - 1);
    assert (count - 1) * 100 == 100 * (count - 1);
  }

  /** The ranks start at 0, end at 100 and never decrease. */
  lemma RanksSpan(count: nat, k1: nat, k2: nat)
    requires count >= 2 && k1 <= k2 < count
    ensures Rank(0, count) == 0 && Rank(count - 1, count) == 100
    ensures Rank(k1, count) <= Rank(k2, count)
  {
    MulDivCancel(100, count - 1);
    assert (count - 1) * 100 == 100 * (count - 1);
    DivMonotone(k1 * 100, k2 * 100, count - 1);
  }

  /** Squared deviations from `mean`, added left to right. */
  function SquaredDeviations(xs: seq<real>, mean: real): real
  {
    if |xs| == 0 then 0.0
    else
      var d := xs[|xs| - 1] - mean;
      SquaredDeviations(xs[..|xs| - 1], mean) + d * d
  }

  lemma {:induction false} SquaredDeviationsNonNegative(xs: seq<real>, mean: real)
    ensures SquaredDeviations(xs, mean) >= 0.0
  {
    if |xs| > 0 {
      SquaredDeviationsNonNegative(xs[..|xs| - 1], mean);
      var d := xs[|xs| - 1] - mean;
      assert d * d >= 0.0;
    }
  }

  lemma {:induction false} SumOfBounds(xs: seq<real>, lo: real, hi: real)
    requires forall i :: 0 <= i < |xs| ==> lo <= xs[i] <= hi
    ensures |xs| as real * lo <= SumOf(xs) <= |xs| as real * hi
  {
    if |xs| > 0 {
      var init := xs[..|xs| - 1];
      assert forall i :: 0 <= i < |init| ==> init[i] == xs[i];
      SumOfBounds(init, lo, hi);
      var m := |init| as real;
      assert (m + 1.0) * lo == m * lo + lo;
      assert (m + 1.0) * hi == m * hi + hi;
    }
  }

  lemma DivBounds(sum: real, n: real, lo: real, hi: real)
    requires 0.0 < n && n * lo <= sum <= n * hi
    ensures lo <= sum / n <= hi
  {
    var m := sum / n;
    assert m * n == sum;
  }

  /** The mean of a series lies between its smallest and largest samples. */
  lemma MeanWithinRange(xs: seq<real>)
    requires |xs| >= 1
    ensures MinOf(xs).Fin? && MaxOf(xs).Fin?
    ensures MinOf(xs).value <= SumOf(xs) / |xs| as real <= MaxOf(xs).value
  {
    MinOfIsMinimum(xs);
    MaxOfIsMaximum(xs);
    MeanBetween(xs, MinOf(xs).value, MaxOf(xs).value);
  }

  lemma MeanBetween(xs: seq<real>, lo: real, hi: real)
    requires |xs| >= 1
    requires forall i :: 0 <= i < |xs| ==> lo <= xs[i] <= hi
    ensures lo <= SumOf(xs) / |xs| as real <= hi
  {
    SumOfBounds(xs, lo, hi);
    DivBounds(SumOf(xs), |xs| as real, lo, hi);
  }

  /** The percentile loop: `percentile_count` evenly spaced ranks and the
      nearest-rank value at each. */
  method Percentiles(sorted: seq<real>, percentileCount: nat) returns (percentiles: seq<(nat, real)>)
    requires |sorted| >= 1 && IsSorted(sorted)
    requires percentileCount != 1
    ensures |percentiles| == percentileCount
    ensures forall k :: 0 <= k < percentileCount ==>
      percentiles[k] == (Rank(k, percentileCount), NearestRank(sorted, Rank(k, percentileCount)))
    ensures forall k1, k2 :: 0 <= k1 <= k2 < percentileCount ==>
      percentiles[k1].0 <= percentiles[k2].0 <= 100 && percentiles[k1].1 <= percentiles[k2].1
    ensures percentileCount >= 2 ==>
      percentiles[0].0 == 0 && percentiles[percentileCount - 1].0 == 100
    ensures forall k :: 0 <= k < percentileCount ==> percentiles[k].1 in sorted
  {
    percentiles := [];
    for k := 0 to percentileCount
      invariant |percentiles| == k
      invariant forall m :: 0 <= m < k ==>
        percentiles[m] == (Rank(m, percentileCount), NearestRank(sorted, Rank(m, percentileCount)))
    {
      var percentile := Rank(k, percentileCount);
      var value := NearestRank(sorted, percentile);
      percentiles := percentiles + [(percentile, value)];
    }
    forall k1, k2 | 0 <= k1 <= k2 < percentileCount
      ensures percentiles[k1].0 <= percentiles[k2].0 <= 100 && percentiles[k1].1 <= percentiles[k2].1
    {
      RanksSpan(percentileCount, k1, k2);
      NearestRankMonotone(sorted, Rank(k1, percentileCount), Rank(k2, percentileCount));
    }
    if percentileCount >= 2 {
      RanksSpan(percentileCount, 0, percentileCount - 1);
    }
  }

  /** The dispersion loop: `stdev += (sample - mean)^2 / n` over the series. */
  method Variance(xs: seq<real>, mean: real) returns (stdev: real)
    requires |xs| >= 1
    ensures stdev == SquaredDeviations(xs, mean) / |xs| as real
    ensures stdev >= 0.0
  {
    var n := |xs| as real;
    stdev := 0.0;
    for i := 0 to |xs|
      invariant stdev == SquaredDeviations(xs[..i], mean) / n
    {
      var d := xs[i] - mean;
      VarianceStep(xs, i, mean, d, n);
      stdev := stdev + d * d / n;
    }
    assert xs[..|xs|] == xs;
    SquaredDeviationsNonNegative(xs, mean);
  }

  /** One turn of the dispersion loop adds the next squared deviation over n. */
  lemma VarianceStep(xs: seq<real>, i: nat, mean: real, d: real, n: real)
    requires i < |xs| && d == xs[i] - mean && 0.0 < n
    ensures SquaredDeviations(xs[..i + 1], mean) / n == SquaredDeviations(xs[..i], mean) / n + d * d / n
  {
    assert xs[..i + 1][..i] == xs[..i];
    var sd := SquaredDeviations(xs[..i], mean);
    var sq := d * d;
    assert SquaredDeviations(xs[..i + 1], mean) == sd + sq;
    DivSum(sd, sq, n);
  }

  lemma DivSum(x: real, y: real, n: real)
    requires 0.0 < n
    ensures (x + y) / n == x / n + y / n
  {
    var qx, qy, q := x / n, y / n, (x + y) / n;
    assert qx * n == x && qy * n == y && q * n == x + y;
    assert (qx + qy) * n == x + y;
  }

  /** `calculate_stats`. The source divides by zero at the first percentile when
      `percentile_count` is 1 and underflows `n - 1` on an empty series; a
      `percentile_count` of 0 is accepted and gives no percentiles. */
  method CalculateStats(t: SampledTask, percentileCount: nat) returns (s: Stats)
    requires t.Valid()
    requires |t.samples| >= 1
    requires percentileCount != 1
    ensures |s.percentiles| == percentileCount
    ensures forall k :: 0 <= k < percentileCount ==>
      s.percentiles[k] == (Rank(k, percentileCount), NearestRank(SortedCopy(t.samples), Rank(k, percentileCount)))
    ensures forall k :: 0 <= k < percentileCount ==> s.percentiles[k].1 in t.samples
    ensures forall k1, k2 :: 0 <= k1 <= k2 < percentileCount ==>
      s.percentiles[k1].0 <= s.percentiles[k2].0 <= 100 && s.percentiles[k1].1 <= s.percentiles[k2].1
    ensures percentileCount >= 2 ==>
      s.percentiles[0].0 == 0 && s.percentiles[percentileCount - 1].0 == 100
    ensures s.iqrLower == NearestRank(SortedCopy(t.samples), 25)
    ensures s.median == NearestRank(SortedCopy(t.samples), 50)
    ensures s.iqrUpper == NearestRank(SortedCopy(t.samples), 75)
    ensures s.iqrLower <= s.median <= s.iqrUpper
    ensures s.iqrRange == s.iqrUpper - s.iqrLower && s.iqrRange >= 0.0
    ensures s.mean == SumOf(t.samples) / |t.samples| as real
    ensures t.min.Fin? && t.max.Fin? && t.min.value <= s.mean <= t.max.value
    ensures s.stdev == SquaredDeviations(t.samples, s.mean) / |t.samples| as real
    ensures s.stdev >= 0.0
  {
    var n := |t.samples|;
    var a := new real[n](i requires 0 <= i < n => t.samples[i]);
    assert a[..] == t.samples;
    SortInPlace(a);
    var sorted := a[..];
    SortedUnique(sorted, SortedCopy(t.samples));

    // Percentiles
    var percentiles := Percentiles(sorted, percentileCount);
    forall k | 0 <= k < percentileCount
      ensures percentiles[k].1 in t.samples
    {
      assert percentiles[k].1 in multiset(sorted);
    }

    // IQR and median
    var iqrLower := NearestRank(sorted, 25);
    var iqrUpper := NearestRank(sorted, 75);
    var iqrRange := iqrUpper - iqrLower;
    var median := NearestRank(sorted, 50);
    NearestRankMonotone(sorted, 25, 50);
    NearestRankMonotone(sorted, 50, 75);

    // Mean
    var mean := t.sum / n as real;
    MeanWithinRange(t.samples);

    // "Stdev": the population variance
    var stdev := Variance(t.samples, mean);

    s := Stats(iqrLower, iqrUpper, iqrRange, mean, median, stdev, percentiles);
  }
}

=== FILE: TaskCsv.dfy ===
/** `parse_tasks_from_csv`: the first line of the text is a header naming the
    columns `name`, `min`, `mode` and `max` (in any order and letter case); every
    later line is one task. The separator is sniffed from the header: comma, then
    tab, then semicolon, whichever first names all four columns. */
module TaskCsv {
  import opened Types
  import opened Text

  /** The separators, in the order they are tried. */
  const Separators: seq<char> := [',', '\t', ';']

  /** Column positions of the four fields a task line must carry. */
  datatype HeaderInfo = HeaderInfo(name: nat, min: nat, mode: nat, max: nat)

  const NoHeaderLine := Error("no header line found")
  const InvalidHeader := Error("invalid header")

  /** The last cell that reads `word` once lower-cased; later matches overwrite
      earlier ones. */
  function LastMatch(cells: seq<string>, word: string): Option<nat>
    decreases |cells|
  {
    if |cells| == 0 then None
    else if ToLower(cells[|cells| - 1]) == word then Some(|cells| - 1)
    else LastMatch(cells[..|cells| - 1], word)
  }

  predicate HasColumn(cells: seq<string>, word: string)
  {
    exists j :: 0 <= j < |cells| && ToLower(cells[j]) == word
  }

  predicate IsLastMatch(cells: seq<string>, word: string, i: nat)
  {
    i < |cells| && ToLower(cells[i]) == word &&
    forall j :: i < j < |cells| ==> ToLower(cells[j]) != word
  }

  /** A column is found exactly when some cell names it, and it is the last such cell. */
  lemma {:induction false} LastMatchIsLast(cells: seq<string>, word: string)
    ensures LastMatch(cells, word).Some? <==> HasColumn(cells, word)
    ensures LastMatch(cells, word).Some? ==> IsLastMatch(cells, word, LastMatch(cells, word).value)
    decreases |cells|
  {
    if |cells| > 0 && ToLower(cells[|cells| - 1]) != word {
      var init := cells[..|cells| - 1];
      LastMatchIsLast(init, word);
      assert forall j :: 0 <= j < |init| ==> init[j] == cells[j];
      if HasColumn(cells, word) {
        var j :| 0 <= j < |cells| && ToLower(cells[j]) == word;
        assert ToLower(init[j]) == word;
      }
    }
  }

  /** What one split of the header line tells: all four column positions, or nothing. */
  function HeaderOf(cells: seq<string>): Option<HeaderInfo>
  {
    var name, min, mode, max :=
      LastMatch(cells, "name"), LastMatch(cells, "min"), LastMatch(cells, "mode"), LastMatch(cells, "max");
    if name.None? || min.None? || mode.None? || max.None? then None
    else Some(HeaderInfo(name.value, min.value, mode.value, max.value))
  }

  /** A header split succeeds exactly when it names all four columns, and each
      position is the last cell with that name. */
  lemma HeaderOfSpec(cells: seq<string>)
    ensures HeaderOf(cells).Some? <==>
      HasColumn(cells, "name") && HasColumn(cells, "min") && HasColumn(cells, "mode") && HasColumn(cells, "max")
    ensures HeaderOf(cells).Some? ==>
      var h := HeaderOf(cells).value;
      IsLastMatch(cells, "name", h.name) && IsLastMatch(cells, "min", h.min) &&
      IsLastMatch(cells, "mode", h.mode) && IsLastMatch(cells, "max", h.max)
  {
    LastMatchIsLast(cells, "name");
    LastMatchIsLast(cells, "min");
    LastMatchIsLast(cells, "mode");
    LastMatchIsLast(cells, "max");
  }

  /** `parse_header_with_separator`: split the header line and remember, for each
      of the four names, the position of the last cell that reads it. */
  method ParseHeaderWithSeparator(headerLine: string, separator: char) returns (r: Option<HeaderInfo>)
    ensures r == HeaderOf(Split(headerLine, separator))
  {
    var headers := Split(headerLine, separator);
    var name, min, mode, max: Option<nat> := None, None, None, None;
    var i := 0;
    while i < |headers|
      invariant 0 <= i <= |headers|
      invariant name == LastMatch(headers[..i], "name")
      invariant min == LastMatch(headers[..i], "min")
      invariant mode == LastMatch(headers[..i], "mode")
      invariant max == LastMatch(headers[..i], "max")
    {
      assert headers[..i + 1][..i] == headers[..i];
      var column := ToLower(headers[i]);
      if column == "name" {
        name := Some(i);
      } else if column == "min" {
        min := Some(i);
      } else if column == "mode" {
        mode := Some(i);
      } else if column == "max" {
        max := Some(i);
      }
      i := i + 1;
    }
    assert headers[..i] == headers;
    if name.None? || min.None? || mode.None? || max.None? {
      return None;
    }
    return Some(HeaderInfo(name.value, min.value, mode.value, max.value));
  }

  /** Index of the first separator in `seps` whose split of the header names all
      four columns, or |seps| when none does. */
  function FirstWorking(headerLine: string, seps: seq<char>): (k: nat)
    ensures k <= |seps|
    ensures forall j :: 0 <= j < k ==> HeaderOf(Split(headerLine, seps[j])).None?
    ensures k < |seps| ==> HeaderOf(Split(headerLine, seps[k])).Some?
  {
    if |seps| == 0 then 0
    else if HeaderOf(Split(headerLine, seps[0])).Some? then 0
    else 1 + FirstWorking(headerLine, seps[1..])
  }

  /** The header's column positions and the separator they were found with. */
  function DetectHeader(headerLine: string): (r: Option<(HeaderInfo, char)>)
    ensures r.None? <==> forall j :: 0 <= j < |Separators| ==> HeaderOf(Split(headerLine, Separators[j])).None?
    ensures r.Some? ==>
      exists k :: 0 <= k < |Separators| && Separators[k] == r.value.1 &&
        HeaderOf(Split(headerLine, Separators[k])) == Some(r.value.0) &&
        (forall j :: 0 <= j < k ==> HeaderOf(Split(headerLine, Separators[j])).None?)
  {
    var k := FirstWorking(headerLine, Separators);
    if k == |Separators| then None
    else Some((HeaderOf(Split(headerLine, Separators[k])).value, Separators[k]))
  }

  predicate Covers(cells: seq<string>, h: HeaderInfo)
  {
    h.name < |cells| && h.min < |cells| && h.mode < |cells| && h.max < |cells|
  }

  /** Every task line has a cell at each of the header's four positions (a shorter
      line makes the source index out of bounds and panic). */
  predicate RowsHaveColumns(csvText: string)
  {
    var lines := Lines(csvText);
    |lines| > 0 && DetectHeader(lines[0]).Some? ==>
      var (h, separator) := DetectHeader(lines[0]).value;
      forall n :: 1 <= n < |lines| ==> Covers(Split(lines[n], separator), h)
  }

  /** `t` is the task read from the cells of one line. */
  predicate FromRow(t: Task, cells: seq<string>, h: HeaderInfo, parse: string -> real)
  {
    Covers(cells, h) &&
    t.name == cells[h.name] && t.min == parse(cells[h.min]) &&
    t.mode == parse(cells[h.mode]) && t.max == parse(cells[h.max])
  }

  /** The separator loop of `parse_tasks_from_csv`: try comma, tab and semicolon in
      that order and stop at the first one whose split reads as a header. */
  method DetectSeparator(headerLine: string) returns (r: Option<(HeaderInfo, char)>)
    ensures r == DetectHeader(headerLine)
  {
    var k := 0;
    while k < |Separators|
      invariant 0 <= k <= |Separators|
      invariant forall j :: 0 <= j < k ==> HeaderOf(Split(headerLine, Separators[j])).None?
    {
      var attempt := ParseHeaderWithSeparator(headerLine, Separators[k]);
      if attempt.Some? {
        assert FirstWorking(headerLine, Separators) == k;
        return Some((attempt.value, Separators[k]));
      }
      k := k + 1;
    }
    assert FirstWorking(headerLine, Separators) == |Separators|;
    return None;
  }

  /** `parse_tasks_from_csv`, with `parse` standing for `str::parse::<f64>`. */
  method ParseTasksFromCsv(csvText: string, parse: string -> real) returns (r: Result<seq<Task>, Error>)
    requires RowsHaveColumns(csvText)
    ensures Lines(csvText) == [] ==> r == Err(NoHeaderLine)
    ensures Lines(csvText) != [] && DetectHeader(Lines(csvText)[0]).None? ==> r == Err(InvalidHeader)
    ensures Lines(csvText) != [] && DetectHeader(Lines(csvText)[0]).Some? ==>
      var lines := Lines(csvText);
      var (h, separator) := DetectHeader(lines[0]).value;
      r.Ok? && |r.value| == |lines| - 1 &&
      forall n :: 0 <= n < |r.value| ==> FromRow(r.value[n], Split(lines[n + 1], separator), h, parse)
  {
    var lines := Lines(csvText);
    if |lines| == 0 {
      return Err(NoHeaderLine);
    }
    var detected := DetectSeparator(lines[0]);
    if detected.None? {
      return Err(InvalidHeader);
    }
    var (h, separator) := detected.value;

    var result: seq<Task> := [];
    var n := 1;
    while n < |lines|
      invariant 1 <= n <= |lines|
      invariant |result| == n - 1
      invariant forall m :: 0 <= m < n - 1 ==> FromRow(result[m], Split(lines[m + 1], separator), h, parse)
    {
      var cells := Split(lines[n], separator);
      result := result + [Task(cells[h.name], parse(cells[h.min]), parse(cells[h.mode]), parse(cells[h.max]))];
      n := n + 1;
    }
    return Ok(result);
  }
}

=== FILE: Text.dfy ===
/** The three pieces of Rust's string library that the task parser relies on:
    `str::lines`, `str::split(char)` and `str::to_lowercase`, on strings as
    sequences of characters. */
module Text {

  /** Position of the first `c` in `s`, or |s| when `s` has none. */
  function IndexOf(s: string, c: char): (i: nat)
    ensures i <= |s|
    ensures i < |s| ==> s[i] == c
    ensures forall j :: 0 <= j < i ==> s[j] != c
  {
    if s == [] then 0
    else if s[0] == c then 0
    else 1 + IndexOf(s[1..], c)
  }

  /** `s.split(sep)`: the pieces between separators, in order. There is always at
      least one piece (the empty string splits into [""]) and a trailing separator
      leaves an empty last piece. */
  function Split(s: string, sep: char): (cells: seq<string>)
    ensures |cells| >= 1
    ensures forall k :: 0 <= k < |cells| ==> sep !in cells[k]
    decreases |s|
  {
    var i := IndexOf(s, sep);
    if i == |s| then [s] else [s[..i]] + Split(s[i + 1..], sep)
  }

  /** The pieces glued back together with `sep` between neighbours. */
  function Join(cells: seq<string>, sep: char): string
  {
    if |cells| == 0 then []
    else if |cells| == 1 then cells[0]
    else cells[0] + [sep] + Join(cells[1..], sep)
  }

  lemma IndexOfJoined(a: string, sep: char, b: string)
    requires sep !in a
    ensures IndexOf(a + [sep] + b, sep) == |a|
  {
    var s := a + [sep] + b;
    assert s[|a|] == sep;
    assert forall j :: 0 <= j < |a| ==> s[j] == a[j];
  }

  /** Splitting loses nothing: joining the pieces gives back the text. */
  lemma {:induction false} JoinSplit(s: string, sep: char)
    ensures Join(Split(s, sep), sep) == s
    decreases |s|
  {
    var i := IndexOf(s, sep);
    if i < |s| {
      var head, rest := s[..i], s[i + 1..];
      JoinSplit(rest, sep);
      SplitAtFirst(s, sep);
      JoinCons(head, Split(rest, sep), sep);
      CutAt(s, i);
    } else {
      SplitWhole(s, sep);
    }
  }

  lemma {:induction false} CutAt(s: string, i: nat)
    requires i < |s|
    ensures s == s[..i] + [s[i]] + s[i + 1..]
  {
  }

  lemma {:induction false} SplitWhole(s: string, sep: char)
    requires IndexOf(s, sep) == |s|
    ensures Split(s, sep) == [s]
  {
  }

  lemma JoinCons(head: string, tail: seq<string>, sep: char)
    requires |tail| >= 1
    ensures Join([head] + tail, sep) == head + [sep] + Join(tail, sep)
  {
    var cells := [head] + tail;
    assert cells[0] == head && cells[1..] == tail;
  }

  lemma SplitWithout(a: string, sep: char)
    requires sep !in a
    ensures Split(a, sep) == [a]
  {
    assert forall j :: 0 <= j < |a| ==> a[j] in a;
  }

  lemma SplitFirst(a: string, sep: char, b: string)
    requires sep !in a
    ensures Split(a + [sep] + b, sep) == [a] + Split(b, sep)
  {
    var s := a + [sep] + b;
    IndexOfJoined(a, sep, b);
    assert s[..|a|] == a;
    assert s[|a| + 1..] == b;
  }

  /** Splitting a join of separator-free pieces gives back exactly those pieces. */
  lemma {:induction false} SplitJoin(cells: seq<string>, sep: char)
    requires |cells| >= 1
    requires forall k :: 0 <= k < |cells| ==> sep !in cells[k]
    ensures Split(Join(cells, sep), sep) == cells
  {
    if |cells| == 1 {
      SplitWithout(cells[0], sep);
    } else {
      var rest := Join(cells[1..], sep);
      assert Join(cells, sep) == cells[0] + [sep] + rest;
      SplitFirst(cells[0], sep, rest);
      SplitJoin(cells[1..], sep);
      assert cells == [cells[0]] + cells[1..];
    }
  }

  /** `line` without one trailing carriage return. */
  function StripCr(line: string): string
  {
    if |line| > 0 && line[|line| - 1] == '\r' then line[..|line| - 1] else line
  }

  /** `s.lines()`: the text cut at every line feed; a carriage return just before
      a line feed belongs to the line ending. A final line feed does not start
      an empty last line, and the empty text has no lines. */
  function Lines(s: string): (lines: seq<string>)
    ensures |lines| == 0 <==> s == []
    ensures forall k :: 0 <= k < |lines| ==> '\n' !in lines[k]
    decreases |s|
  {
    if s == [] then []
    else
      var i := IndexOf(s, '\n');
      if i == |s| then [s] else [StripCr(s[..i])] + Lines(s[i + 1..])
  }

  /** The lines a split at line feeds describes: every piece followed by a line
      feed loses one trailing carriage return, and the last piece (the text after
      the final line feed) is a line of its own only when it is not empty. */
  function PiecesToLines(pieces: seq<string>): seq<string>
    requires |pieces| >= 1
  {
    if |pieces| == 1 then (if pieces[0] == [] then [] else [pieces[0]])
    else [StripCr(pieces[0])] + PiecesToLines(pieces[1..])
  }

  /** `str::lines` is the split at line feeds, read as above. With `JoinSplit`,
      this pins the lines' content to the text. */
  lemma {:induction false} LinesAreSplitPieces(s: string)
    ensures Lines(s) == PiecesToLines(Split(s, '\n'))
    decreases |s|
  {
    var i := IndexOf(s, '\n');
    if i < |s| {
      var rest := s[i + 1..];
      LinesAreSplitPieces(rest);
      SplitAtFirst(s, '\n');
      LinesAtFirst(s);
      PiecesToLinesCons(s[..i], Split(rest, '\n'));
    } else {
      SplitWhole(s, '\n');
      LinesWhole(s);
    }
  }

  lemma PiecesToLinesCons(head: string, tail: seq<string>)
    requires |tail| >= 1
    ensures PiecesToLines([head] + tail) == [StripCr(head)] + PiecesToLines(tail)
  {
    assert ([head] + tail)[1..] == tail;
  }

  lemma {:induction false} LinesWhole(s: string)
    requires IndexOf(s, '\n') == |s|
    ensures Lines(s) == if s == [] then [] else [s]
  {
  }

  lemma {:induction false} SplitAtFirst(s: string, sep: char)
    requires IndexOf(s, sep) < |s|
    ensures Split(s, sep) == [s[..IndexOf(s, sep)]] + Split(s[IndexOf(s, sep) + 1..], sep)
  {
  }

  lemma {:induction false} LinesAtFirst(s: string)
    requires IndexOf(s, '\n') < |s|
    ensures Lines(s) == [StripCr(s[..IndexOf(s, '\n')])] + Lines(s[IndexOf(s, '\n') + 1..])
  {
  }

  /** `char::to_lowercase` on the ASCII letters; every other character is kept. */
  function LowerChar(c: char): (r: char)
    ensures !('A' <= r <= 'Z')
    ensures !('A' <= c <= 'Z') ==> r == c
    ensures 'A' <= c <= 'Z' ==> r as int - c as int == 'a' as int - 'A' as int
  {
    if 'A' <= c <= 'Z' then (c as int - 'A' as int + 'a' as int) as char else c
  }

  /** ASCII lower-casing of a whole string: each character lower-cased in place, so
      no upper-case ASCII letter is left and a string already in lower case is
      returned unchanged. */
  function ToLower(s: string): (r: string)
    ensures |r| == |s|
    ensures forall i {:trigger r[i]} :: 0 <= i < |s| ==> r[i] == LowerChar(s[i])
    ensures forall i :: 0 <= i < |r| ==> !('A' <= r[i] <= 'Z')
    ensures (forall i :: 0 <= i < |s| ==> !('A' <= s[i] <= 'Z')) ==> r == s
  {
    seq(|s|, i requires 0 <= i < |s| => LowerChar(s[i]))
  }

  /** Matching a lower-cased cell against a lower-case column name is
      case-insensitive comparison: the cell has the name's length and each of its
      characters is the name's character or, for a letter, its capital. */
  lemma ToLowerMatches(s: string, w: string)
    requires forall i :: 0 <= i < |w| ==> !('A' <= w[i] <= 'Z')
    ensures ToLower(s) == w <==>
      |s| == |w| &&
      forall i :: 0 <= i < |s| ==>
        s[i] == w[i] || ('a' <= w[i] <= 'z' && s[i] as int == w[i] as int - ('a' as int - 'A' as int))
  {
    if |s| == |w| && forall i :: 0 <= i < |s| ==>
        s[i] == w[i] || ('a' <= w[i] <= 'z' && s[i] as int == w[i] as int - ('a' as int - 'A' as int))
    {
      forall i | 0 <= i < |s|
        ensures ToLower(s)[i] == w[i]
      {
        assert ToLower(s)[i] == LowerChar(s[i]);
      }
    }
    if ToLower(s) == w {
      forall i | 0 <= i < |s|
        ensures s[i] == w[i] || ('a' <= w[i] <= 'z' && s[i] as int == w[i] as int - ('a' as int - 'A' as int))
      {
        assert LowerChar(s[i]) == w[i];
      }
    }
  }
}

=== FILE: Types.dfy ===
/** Records shared by the whole pipeline: the task estimate, the extended reals that the
    running minimum and maximum start from, and the small Option/Result wrappers used
    for the parser's error returns. */
module Types {

  datatype Option<T> = None | Some(value: T)

  datatype Result<T, E> = Ok(value: T) | Err(error: E)

  /** A task's three-point estimate. The sampler is only meaningful when
      min <= mode <= max; the parser does not check this. */
  datatype Task = Task(name: string, min: real, mode: real, max: real)
  {
    predicate WellOrdered() {
      min <= mode <= max
    }
  }

  /** The parser's error value: a message. */
  datatype Error = Error(msg: string)

  /** An f64 that is finite or one of the two infinities. Only the running minimum
      and maximum of a sample series need the infinities: they start at
      +infinity and -infinity and keep them when the series is empty. */
  datatype ExtReal = NegInf | Fin(value: real) | PosInf
  {
    /** f64::min(self, x) for a finite x: -infinity stays, otherwise the smaller of
        the two, which is x itself or the old finite value. */
    function MinWith(x: real): (r: ExtReal)
      ensures r == NegInf <==> this == NegInf
      ensures this != NegInf ==> r.Fin?
      ensures r.Fin? ==> r.value <= x && (this.Fin? ==> r.value <= this.value)
      ensures r.Fin? ==> r.value == x || this == r
    {
      match this
      case NegInf => NegInf
      case Fin(v) => Fin(if x < v then x else v)
      case PosInf => Fin(x)
    }

    /** f64::max(self, x) for a finite x: +infinity stays, otherwise the larger of
        the two, which is x itself or the old finite value. */
    function MaxWith(x: real): (r: ExtReal)
      ensures r == PosInf <==> this == PosInf
      ensures this != PosInf ==> r.Fin?
      ensures r.Fin? ==> x <= r.value && (this.Fin? ==> this.value <= r.value)
      ensures r.Fin? ==> r.value == x || this == r
    {
      match this
      case NegInf => Fin(x)
      case Fin(v) => Fin(if x > v then x else v)
      case PosInf => PosInf
    }
  }
}
